=== FILE: README.md ===
# SurfStore metadata protocol in Dafny

This project models the two halves of a SurfStore-style file store:

- **The metadata store** (`metastore.py`). It keeps two maps from filename:
  one to a version, one to a hashlist or a tombstone (`None`). It offers
  `modify_file`, `delete_file` and `read_file` under optimistic concurrency:
  a write must propose exactly the current version plus one, where the
  current version of an unknown file is 0.
- **The client** (`client.py`). It cuts a file into 4096-byte blocks and
  hashes each one (`splitFile`). It derives the file name from the path.
  It runs the `upload` and `delete` retry loops against the store, and
  `download` rebuilds a file from its hash list, reusing local blocks.

Each lock-protected RPC body is one atomic transition of an immutable
`MetaState`. The block-store shards are a sequence of maps from hash to
bytes. SHA-256 is a function parameter `hash: Bytes -> Hex.Digest`; it is
assumed injective only where a round-trip lemma needs it. The client's
`while True` loops run on a `fuel` bound and report `OutOfFuel` when it runs
out.

Modules, one per file:

- `Base` (`base.dfy`): `Option` and bytes.
- `Hex` (`hex.dfy`): `int(h, 16)`.
- `Routing` (`routing.dfy`): `find_server` / `findServer`.
- `BlockStore` (`blockstore.dfy`): the shards.
- `Metastore` (`metastore.dfy`): the server's state machine.
- `Chunker` (`chunker.dfy`): `splitFile`.
- `Client` (`client.dfy`): the file name, and the upload, delete and download logic.
- `Protocol` (`protocol.dfy`): the client and the store composed.

### Behaviour as written

The model follows the code, in these places against the intended protocol:

- The intended protocol resubmits the same version after a MissingBlocks
  reply once the blocks are pushed. The code instead proposes one more version
  (`v = v+1` at the top of the loop, client.py:81). The store has already
  written the proposal speculatively (metastore.py:135-140). So an upload
  that needs blocks takes two `modify_file` calls and leaves the version read
  plus two (`Protocol.UploadWhenBlocksMissing`). A fresh file uploaded twice
  into an empty system gets versions 2 and then 3, not 1 and 2
  (`Protocol.UploadTwiceFromEmpty`).
  Resubmitting the same version after MissingBlocks would be refused
  (`Metastore.ResubmitAfterMissingBlocksRefused`).
- The intended protocol answers FileNotFound to a delete of an unknown file.
  The code's `delete_file` answers WrongVersion(0) and never raises
  FileNotFound (metastore.py:163-166). A tombstoned file can be deleted again.
- The intended protocol bounds the client's delete retries. The code's loop
  has no bound (client.py:108-116): no reply from the store ends it except
  `'OK'`.
- An empty file uploads, with an empty hash list, but `download` and
  `delete` then report it as not found, because both treat an empty list as
  absent (`Protocol.EmptyFileUploadsButIsNotFound`).

## Model

| member | source | states |
|---|---|---|
| Routing.FindServer | metastore.py:194-195 | A shard is returned exactly when the hash is hexadecimal and there is at least one shard (Python raises otherwise), and it lies in `[0, n)`; by definition it is `int(h, 16) % n`, the one function both the client and the store use |
| Hex.Value | client.py:35-36 | The value of a string of hex digits, defined positionally: each digit weighs 16 to the power of the number of digits after it |
| Hex.ValueSnoc | client.py:35-36 | Appending a digit on the right multiplies the value so far by 16 and adds that digit, the step a left-to-right reader takes |
| Hex.Parse | client.py:35-36 | `int(h, 16)` read left to right (Horner's rule: the running value times 16 plus each digit) equals the positional `Value` |
| BlockStore.StoreBlock | client.py:94 | `store_block` files the block under its hash on one shard; every other entry of every shard is kept and nothing else is added |
| BlockStore.GetBlock | client.py:139 | `get_block` yields a block exactly when the shard holds the hash, and then the stored block |
| BlockStore.GrowsKeepsHonest | client.py:91-94 | Adding only blocks filed under their own hash keeps every shard content-addressed |
| Metastore.Version | metastore.py:117-119 | `server_version`: the stored version, 0 for an unknown filename |
| Metastore.VersionZeroIffUnknown | metastore.py:117-119 | On a well-formed store the version is 0 exactly when the filename is unknown |
| Metastore.ReadFile | metastore.py:182-191 | `read_file` gives the stored version, or 0 for an unknown name, and the stored hashlist or `None`; on a well-formed store an unknown name reads `(0, None)` |
| Metastore.Commit | metastore.py:143-144 | After a write, the file reads back as the written pair; every other file reads as before; no filename is removed; a write of version at least 1 keeps the store well-formed |
| Metastore.Missing | metastore.py:127-131 | The missing-blocks report is never longer than the list; its contents are pinned by `MissingMembers`, `MissingCounts` and `MissingAppend` |
| Metastore.MissingMembers | metastore.py:127-131 | A hash is reported missing exactly when it is in the list and its owning shard lacks it: no omissions, no extras |
| Metastore.MissingCounts | metastore.py:127-131 | Duplicates are kept: a lacking hash is reported as many times as it occurs, a held hash never |
| Metastore.MissingAppend | metastore.py:128-131 | The report of a concatenated list is the concatenation of the reports, so list order is kept |
| Metastore.ModifyFile | metastore.py:113-147 | Wrong version: WrongVersion(current) and no change. Otherwise the pair is recorded even when blocks are missing. The reply is `'OK'` exactly when every hash is held, else MissingBlocks with the non-empty missing list. A write sets the version to exactly current plus one; other files are untouched |
| Metastore.DeleteFile | metastore.py:156-172 | Unknown file or wrong version: WrongVersion(current) and no change, never FileNotFound. Otherwise `'OK'` and a tombstone at the proposed version, with no key removed and other files untouched |
| Metastore.Apply | metastore.py:113-172 | Any call either writes the proposed version, which is the old one plus one, or changes nothing; other files keep their versions; well-formedness is preserved |
| Metastore.VersionCountsCommits | metastore.py:113-172 | After any sequence of calls, a file's version is its starting version plus the number of calls on it that wrote; no filename disappears; well-formedness holds throughout |
| Metastore.SameVersionOneWinner | metastore.py:117-124 | Of two calls proposing the same version of one file, once the first writes, the second is refused with WrongVersion carrying that version |
| Metastore.ResubmitAfterMissingBlocksRefused | metastore.py:117-140 | Resending the same version after MissingBlocks is refused, because the speculative write took that version |
| Chunker.Chunks | client.py:44-51 | An empty file gives no blocks, and only an empty file does |
| Chunker.ChunkSizes | client.py:44-51 | Every block holds 1 to 4096 bytes and every block but the last holds exactly 4096 |
| Chunker.ChunkCount | client.py:44-51 | A file of `k` bytes gives `k / 4096` blocks, rounded up |
| Chunker.ChunksConcat | client.py:44-51 | The blocks written back in order give the file's bytes |
| Chunker.Window | client.py:45 | A read returns no more than what remains, and something while bytes remain |
| Chunker.HashList | client.py:47-50 | The hash list has one entry per block |
| Chunker.HashListEntries | client.py:47-50 | `hash_list[i]` is the hash of block `i`, and every entry is a hex digest |
| Chunker.KeyBlockTable | client.py:48 | Every block's hash is a key, and every key maps to one of the blocks whose hash it is |
| Chunker.KeyBlockLastWins | client.py:46-48 | Later blocks overwrite earlier ones: a block with no later block of the same hash is the one filed under that hash |
| Chunker.KeyServerTable | client.py:49 | The keys are exactly the listed hashes, each mapped to the shard `findServer` gives it |
| Chunker.SplitFile | client.py:39-53 | `splitFile`: the hash list it returns is the list of the hashes of the file's 4096-byte blocks |
| Chunker.SplitFileConsistent | client.py:39-53 | The three tables agree: every listed hash has its block and its shard, and both tables hold exactly the listed hashes |
| Chunker.SplitFileLoop | client.py:39-53 | The read loop builds the same three tables as the blockwise definition |
| Chunker.TenThousandBytes | client.py:44-51 | A 10,000-byte file splits into blocks of 4096, 4096 and 1808 bytes |
| Client.FileName | client.py:62-67 | The path itself when it has no `'/'`, else the text after the last `'/'`; characterised by `FileNameIsLastPart` and `FileNameUnique` |
| Client.AfterLastSlash | client.py:67 | The text after the last `'/'`: a proper suffix of the path, free of `'/'`, preceded by a `'/'` |
| Client.FileNameIsLastPart | client.py:62-67 | The file name is a `'/'`-free suffix of the path that is either the whole path or follows a `'/'`, and is the whole path when there is no `'/'` |
| Client.FileNameUnique | client.py:62-67 | The file name is the only suffix with those properties |
| Client.UploadNext | client.py:79-96 | `'OK'` ends the loop; WrongVersion(c) proposes c + 1; MissingBlocks proposes one more than before; any other exception leaves the loop |
| Client.PushMissing | client.py:89-94 | The push completes exactly when every listed hash is in both tables. Every listed block then sits on shard `key_server_table[key]`; nothing is removed and only the file's own blocks are written |
| Client.UploadAttempt | client.py:81-96 | One pass only ever adds the file's own blocks and changes no other file's record; a finishing pass leaves the shards untouched, with the file's list recorded and every block held |
| Client.UploadLoop | client.py:79-96 | Each pass makes one call, only adds the file's own blocks and changes no other file's record. A finished loop made at least one call and leaves the file's list recorded and every block held; the resync after WrongVersion is stated by `UploadLoopResyncs` |
| Protocol.UploadLoopResyncs | client.py:81-96 | A proposal refused as the wrong version costs one call, and the loop goes on from the version the store reports plus one |
| Protocol.RefusedAttemptResyncs | client.py:81-96 | One upload pass with a refused proposal leaves the system as it was and next proposes the version the store reports plus one |
| Protocol.DeleteLoopResyncs | client.py:108-116 | The same resync in the delete loop, also when the file is unknown to the store |
| Protocol.DeleteSpinsOnUnknown | client.py:108-116 | The delete loop has no retry counter: entered directly on a file the store does not know, it spends all its fuel and changes nothing. `delete` itself never gets there, because it refuses version 0 first; only a concurrent writer, which the model does not have, could lead the loop there |
| Client.UploadData | client.py:74-96 | Once the file is read: a finished upload recorded the hashes of its blocks under the name, needed a shard when the file is not empty, and changed no other file's record |
| Client.Upload | client.py:59-96 | No local file: nothing happens. A finished upload recorded the hashes of the file's blocks under its name, and needed a shard when the file is not empty; no other file's record changes |
| Client.DeleteStart | client.py:103-106 | The delete is not attempted exactly when the version is 0 or the hashlist is `None` or empty; otherwise it proposes `v + 1` |
| Client.DeleteNext | client.py:108-116 | `'OK'` ends the loop; WrongVersion(c) proposes c + 1; any other ErrorResponse repeats the proposal |
| Client.DeleteLoop | client.py:108-116 | The loop never touches the shards or any other file's record and never gives up on a store reply; a finished loop left a tombstone; the resync after WrongVersion is stated by `DeleteLoopResyncs` |
| Client.Delete | client.py:102-116 | Not found exactly when the not-found check says so, and then nothing happens; in every case the shards and every other file's record are untouched |
| Client.Fetch | client.py:138-139 | A block is fetched exactly when shard `findServer(key)` holds it, and it is the stored block |
| Client.BlockFor | client.py:135-139 | The block for a hash: the local table's block when the table has the hash, else `get_block` from its shard |
| Client.FetchBlocks | client.py:133-140 | All blocks can be had exactly when each entry can; then there is one block per entry, in list order, the local block when the local table has the hash and the fetched one otherwise |
| Client.DownloadFile | client.py:122-156 | Not found exactly when the hashlist is `None` or empty; its hash-by-hash reuse of the destination's blocks is stated by `DownloadMixes` |
| Protocol.PushMakesPresent | client.py:89-94 | Pushing a missing list drawn from the file's own hashes completes, and the store then sees every pushed block on the shard it asks |
| Protocol.PushCompletes | client.py:89-94 | Pushing the store's missing report for the file's list completes, after which every listed block is held |
| Protocol.UploadLoopKeepsHonest | client.py:89-94 | The upload loop keeps the shards content-addressed |
| Protocol.UploadEntersLoop | client.py:74-84 | `upload` splits the file once and starts the loop at the version read plus one |
| Protocol.LoopFinishes | client.py:84-87 | A pass answered `'OK'` ends the loop after one call |
| Protocol.LoopPushes | client.py:88-94 | A pass answered MissingBlocks whose push completes goes round again with the next proposal on the grown shards |
| Protocol.FirstPassReportsMissing | metastore.py:126-140 | With a block absent, the first call reports exactly the missing list, and pushing it completes |
| Protocol.FirstPassPushes | client.py:79-94 | With a block absent, the loop makes the speculative write, pushes, and goes round again at the version read plus two |
| Protocol.SecondPassFinishes | metastore.py:142-145 | After the push, the second call is answered `'OK'` and ends the loop |
| Protocol.LoopWhenBlocksMissing | client.py:79-96 | With a block absent and no other writer, the loop makes two calls and records the list at the version read plus two, all other files unchanged |
| Protocol.UploadWhenBlocksMissing | client.py:59-96 | The same for `upload` itself: two calls, the file's hashes recorded at the version read plus two, all other files unchanged |
| Protocol.UploadWhenAllPresent | client.py:79-87 | With every block held and no other writer: one call, the version read plus one, no block pushed, all other files unchanged |
| Protocol.FetchReassembles | client.py:133-143 | With an injective hash and content-addressed shards, the blocks gathered for a file's list are exactly its blocks |
| Protocol.DownloadReassembles | client.py:122-156 | A download of a list whose blocks are all held writes the blocks it was made from, whatever lies at the destination |
| Protocol.LocalReassembles | client.py:133-137 | When the local table holds every block of the list under its own hash, the blocks gathered are the list's blocks, whatever the shards hold |
| Protocol.MixedReassembles | client.py:134-140 | Each hash is taken from the local table when the table has it and fetched from its shard otherwise; when every block can be had one way or the other, the blocks gathered are the list's blocks |
| Protocol.DownloadUsesLocalCopy | client.py:129-143 | A download into a destination that already holds the file writes it back from the local blocks alone, even when no shard holds any block |
| Protocol.DownloadMixes | client.py:128-145 | A download into a destination holding another file, such as an older version, takes the blocks the two share from the destination and fetches only the rest; it writes the stored file even when no shard holds the shared blocks |
| Protocol.LoopThenDownload | client.py:122-156 | After the upload loop finishes, a download writes exactly the uploaded bytes |
| Protocol.UploadThenDownload | client.py:59-156 | Round trip: after a finished upload of a non-empty file, a download writes exactly its bytes |
| Protocol.EmptyFileUploadsButIsNotFound | client.py:102-127 | An empty file uploads in one call with an empty list, after which `download` and `delete` both report it not found |
| Protocol.UploadTwiceFromEmpty | client.py:79-96 | From an empty system, a non-empty file uploaded twice gets version 2 after two calls, then version 3 after one call |
| Protocol.DeleteWhenPresent | client.py:102-116 | Deleting a file that holds blocks, with no other writer, takes one call and leaves a tombstone at the version read plus one; no other file's record changes |

## Left out

- rpyc connections, the thread-pool server and the `__main__` entry points: transport only.
- `threading.Lock`: each locked method body is one atomic step. Interleaving appears only as arbitrary sequences of other clients' calls (`Metastore.Run`).
- `parse_config` in both files: configuration reading. The shard count is the number of shards, `|stores.shards|`. The source reads only one digit of it.
- SHA-256: a function parameter. Injectivity is a precondition of the round-trip lemmas only.
- File reads and writes and the `os.path` calls: file contents are `seq<bv8>`, and a local file that may be absent is an `Option`.
- `eval` of the serialised missing-blocks payload (client.py:90), and every `print`.
- Routing.FindServer: the model accepts only non-empty strings of ASCII hex digits, while Python's `int(h, 16)` also accepts surrounding whitespace, a sign, a `0x` prefix, underscores and non-ASCII decimal digits; digests never contain those.
- Client.UploadLoop: runs for at most `fuel` calls instead of forever. `OutOfFuel` stands for "still running".
- Client.DeleteLoop: runs for at most `fuel` calls instead of forever. `OutOfFuel` stands for "still running".
- Client.PushMissing: a hash missing from either table raises `KeyError` in the source. Here that is an incomplete push, and the loop stops with `Aborted`.
- Client.Fetch: `get_block` of a hash the shard lacks is treated as a failure. What the block store does in that case is not part of this model.
- Client.DownloadFile: a failed fetch gives `Failed`. The source may already have written earlier blocks when it fails, so partial files are not modelled.
- The block-store service itself (`has_block`, `get_block`, `store_block`) is a collaborator. It is modelled only as maps from hash to bytes.

=== FILE: base.dfy ===
/** Value types shared by every module: optional values and raw file bytes. */
module Base {

  /** Python's `None` or a present value. */
  datatype Option<+T> = None | Some(value: T)

  type byte = bv8

  /** File contents and block contents. */
  type Bytes = seq<byte>
}

=== FILE: blockstore.dfy ===
/**
 * The block store shards, an external collaborator of the core: shard `i` is a
 * map from block hash to block bytes, answering `has_block`, `get_block` and
 * `store_block`.
 */
module BlockStore {
  import opened Base
  import Hex

  datatype Stores = Stores(shards: seq<map<string, Bytes>>)

  /** `store_block(h, b)` on shard `i`. */
  function StoreBlock(s: Stores, i: nat, h: string, b: Bytes): (r: Stores)
    requires i < |s.shards|
    ensures |r.shards| == |s.shards|
    ensures h in r.shards[i] && r.shards[i][h] == b
    ensures forall j, k :: 0 <= j < |s.shards| && k in s.shards[j] && (j != i || k != h) ==>
      k in r.shards[j] && r.shards[j][k] == s.shards[j][k]
    ensures forall j, k :: 0 <= j < |r.shards| && k in r.shards[j] ==> k in s.shards[j] || (j == i && k == h)
  {
    Stores(s.shards[i := s.shards[i][h := b]])
  }

  /** `get_block(h)` on shard `i`; `None` when the shard does not hold `h`. */
  function GetBlock(s: Stores, i: nat, h: string): (r: Option<Bytes>)
    requires i < |s.shards|
    ensures r.Some? <==> h in s.shards[i]
    ensures r.Some? ==> r.value == s.shards[i][h]
  {
    if h in s.shards[i] then Some(s.shards[i][h]) else None
  }

  /** Every block of one shard is filed under its own hash. */
  ghost predicate ShardHonest(m: map<string, Bytes>, hash: Bytes -> Hex.Digest) {
    forall h :: h in m ==> hash(m[h]) == h
  }

  /** Every stored block is filed under its own hash: the content addressing the shards rely on. */
  ghost predicate Honest(s: Stores, hash: Bytes -> Hex.Digest) {
    forall i :: 0 <= i < |s.shards| ==> ShardHonest(s.shards[i], hash)
  }

  /**
   * `after` still holds every block `before` held, on the same shard, and
   * each block it holds is either unchanged from `before` or the block
   * `extra` files under that hash.
   */
  ghost predicate Grows(before: Stores, after: Stores, extra: map<string, Bytes>) {
    && |after.shards| == |before.shards|
    && (forall i, h :: 0 <= i < |before.shards| && h in before.shards[i] ==> h in after.shards[i])
    && (forall i, h :: 0 <= i < |after.shards| && h in after.shards[i] ==>
          || (h in before.shards[i] && after.shards[i][h] == before.shards[i][h])
          || (h in extra && after.shards[i][h] == extra[h]))
  }

  lemma GrowsTransitive(s1: Stores, s2: Stores, s3: Stores, extra: map<string, Bytes>)
    requires Grows(s1, s2, extra) && Grows(s2, s3, extra)
    ensures Grows(s1, s3, extra)
  {
  }

  /** Growing only by blocks filed under their own hash keeps the shards content-addressed. */
  lemma GrowsKeepsHonest(before: Stores, after: Stores, extra: map<string, Bytes>, hash: Bytes -> Hex.Digest)
    requires Honest(before, hash)
    requires forall k :: k in extra ==> hash(extra[k]) == k
    requires Grows(before, after, extra)
    ensures Honest(after, hash)
  {
    forall i | 0 <= i < |after.shards|
      ensures ShardHonest(after.shards[i], hash)
    {
      forall h | h in after.shards[i]
        ensures hash(after.shards[i][h]) == h
      {
        if h in before.shards[i] && after.shards[i][h] == before.shards[i][h] {
          assert ShardHonest(before.shards[i], hash);
        } else {
          assert h in extra && after.shards[i][h] == extra[h];
        }
      }
    }
  }
}

=== FILE: chunker.dfy ===
/**
 * The client's chunker (`splitFile`): a file read in 4096-byte windows, each
 * window hashed, with the tables that map a hash to its block and to the
 * shard that owns it. The hash function is a parameter.
 */
module Chunker {
  import opened Base
  import Hex
  import Routing

  const BlockSize: nat := 4096

  /** The windows `file.read(BlockSize)` returns, in file order, until it returns nothing. */
  function Chunks(data: Bytes): (cs: seq<Bytes>)
    ensures cs == [] <==> data == []
    decreases |data|
  {
    if |data| == 0 then []
    else if |data| <= BlockSize then [data]
    else [data[..BlockSize]] + Chunks(data[BlockSize..])
  }

  /** No block is empty or longer than 4096 bytes, and every block but the last is full. */
  lemma {:induction false} ChunkSizes(data: Bytes)
    ensures var cs := Chunks(data);
      && (forall i :: 0 <= i < |cs| ==> 0 < |cs[i]| <= BlockSize)
      && (forall i :: 0 <= i < |cs| - 1 ==> |cs[i]| == BlockSize)
    decreases |data|
  {
    if |data| > BlockSize {
      ChunkSizes(data[BlockSize..]);
      var cs := Chunks(data);
      assert forall i :: 1 <= i < |cs| ==> cs[i] == Chunks(data[BlockSize..])[i - 1];
    }
  }

  /** A file of `k` bytes has `k / 4096` blocks, rounded up. */
  lemma {:induction false} ChunkCount(data: Bytes)
    ensures |Chunks(data)| == (|data| + BlockSize - 1) / BlockSize
    decreases |data|
  {
    if |data| > BlockSize {
      ChunkCount(data[BlockSize..]);
    }
  }

  /** The blocks written one after another. */
  function Concat(cs: seq<Bytes>): Bytes
    decreases |cs|
  {
    if cs == [] then [] else cs[0] + Concat(cs[1..])
  }

  /** Writing the chunks back in order gives the file. */
  lemma {:induction false} ChunksConcat(data: Bytes)
    ensures Concat(Chunks(data)) == data
    decreases |data|
  {
    if |data| > BlockSize {
      ChunksConcat(data[BlockSize..]);
      assert data == data[..BlockSize] + data[BlockSize..];
    }
  }

  /** The next `file.read(BlockSize)` once `pos` bytes have been read. */
  function Window(data: Bytes, pos: nat): (w: Bytes)
    requires pos <= |data|
    ensures |w| <= |data| - pos
    ensures pos < |data| ==> |w| > 0
  {
    if |data| - pos <= BlockSize then data[pos..] else data[pos..pos + BlockSize]
  }

  /** Reading one window peels the first chunk off the rest of the file. */
  lemma ChunksFrom(data: Bytes, pos: nat)
    requires pos <= |data|
    ensures Window(data, pos) == [] ==> Chunks(data[pos..]) == []
    ensures Window(data, pos) != [] ==>
      Chunks(data[pos..]) == [Window(data, pos)] + Chunks(data[pos + |Window(data, pos)|..])
  {
    var rest := data[pos..];
    if |rest| > BlockSize {
      assert rest[..BlockSize] == data[pos..pos + BlockSize];
      assert rest[BlockSize..] == data[pos + BlockSize..];
    } else if |rest| > 0 {
      assert data[pos + |rest|..] == [];
    }
  }

  /** `blocks` are the chunks of the first `pos` bytes of the file. */
  ghost predicate ReadSoFar(data: Bytes, pos: nat, blocks: seq<Bytes>)
    requires pos <= |data|
  {
    blocks + Chunks(data[pos..]) == Chunks(data)
  }

  /** Reading one more window keeps `ReadSoFar`. */
  lemma ChunksStep(data: Bytes, pos: nat, blocks: seq<Bytes>, block: Bytes, next: nat)
    requires pos <= |data| && block == Window(data, pos) && block != []
    requires next == pos + |block|
    requires ReadSoFar(data, pos, blocks)
    ensures next <= |data| && ReadSoFar(data, next, blocks + [block])
  {
    ChunksFrom(data, pos);
    var later := Chunks(data[next..]);
    assert (blocks + [block]) + later == blocks + ([block] + later);
  }

  /** Once a read returns nothing, the blocks read so far are all the chunks. */
  lemma ReadAll(data: Bytes, pos: nat, blocks: seq<Bytes>)
    requires pos <= |data| && Window(data, pos) == []
    requires ReadSoFar(data, pos, blocks)
    ensures blocks == Chunks(data)
  {
    ChunksFrom(data, pos);
    assert blocks + [] == blocks;
  }

  /** `hash_list`: block `i`'s hash at index `i`. */
  function HashList(cs: seq<Bytes>, hash: Bytes -> Hex.Digest): (hl: seq<string>)
    ensures |hl| == |cs|
  {
    seq(|cs|, i requires 0 <= i < |cs| => hash(cs[i]))
  }

  /** Entry `i` of the hash list is the hash of block `i`, so every entry is a hex digest. */
  lemma HashListEntries(cs: seq<Bytes>, hash: Bytes -> Hex.Digest)
    ensures var hl := HashList(cs, hash);
      && (forall i :: 0 <= i < |cs| ==> hl[i] == hash(cs[i]))
      && (forall h :: h in hl ==> Hex.IsHex(h))
  {
  }

  /**
   * `key_block_table`: each chunk filed under its hash, later chunks
   * overwriting earlier ones with the same hash.
   */
  function KeyBlockTable(cs: seq<Bytes>, hash: Bytes -> Hex.Digest): (t: map<string, Bytes>)
    ensures forall i :: 0 <= i < |cs| ==> hash(cs[i]) in t
    ensures forall k :: k in t ==> hash(t[k]) == k && t[k] in cs
    decreases |cs|
  {
    if cs == [] then map[]
    else
      var last := cs[|cs| - 1];
      KeyBlockTable(cs[..|cs| - 1], hash)[hash(last) := last]
  }

  /**
   * Later blocks overwrite earlier ones, as in a Python dict: a block with no
   * later block of the same hash is the one filed under that hash.
   */
  lemma {:induction false} KeyBlockLastWins(cs: seq<Bytes>, hash: Bytes -> Hex.Digest, i: nat)
    requires i < |cs|
    requires forall j :: i < j < |cs| ==> hash(cs[j]) != hash(cs[i])
    ensures KeyBlockTable(cs, hash)[hash(cs[i])] == cs[i]
    decreases |cs|
  {
    if i < |cs| - 1 {
      var front := cs[..|cs| - 1];
      forall j | i < j < |front| ensures hash(front[j]) != hash(front[i]) {
        assert front[j] == cs[j] && front[i] == cs[i];
      }
      KeyBlockLastWins(front, hash, i);
      assert front[i] == cs[i];
    }
  }

  /** `key_server_table`: every hash of the list mapped to the shard `findServer` gives it. */
  function KeyServerTable(hl: seq<string>, n: nat): (t: map<string, nat>)
    requires forall h :: h in hl ==> Routing.FindServer(h, n).Some?
    ensures forall h :: h in t <==> h in hl
    ensures forall h :: h in t ==> Routing.FindServer(h, n) == Some(t[h])
  {
    map h | h in hl :: Routing.FindServer(h, n).value
  }

  /** The three tables `splitFile` returns. */
  datatype Split = Split(keyBlock: map<string, Bytes>, keyServer: map<string, nat>, hashList: seq<string>)

  /**
   * The tables agree with the hash and the router: every listed hash has a
   * block whose hash it is and the shard `findServer` assigns it.
   */
  ghost predicate Consistent(s: Split, hash: Bytes -> Hex.Digest, n: nat) {
    && (forall k :: k in s.hashList ==> k in s.keyBlock && k in s.keyServer)
    && (forall k :: k in s.keyBlock ==> hash(s.keyBlock[k]) == k)
    && (forall k :: k in s.keyServer ==> Routing.FindServer(k, n) == Some(s.keyServer[k]))
  }

  /** The tables built from a sequence of blocks, as the read loop fills them. */
  function Tables(cs: seq<Bytes>, hash: Bytes -> Hex.Digest, n: nat): Split
    requires n > 0 || cs == []
  {
    var hl := HashList(cs, hash);
    Split(KeyBlockTable(cs, hash), KeyServerTable(hl, n), hl)
  }

  /** One more block read: each table gains that block's entry. */
  lemma TablesSnoc(cs: seq<Bytes>, b: Bytes, hash: Bytes -> Hex.Digest, n: nat)
    requires n > 0
    ensures var t := Tables(cs, hash, n);
      Tables(cs + [b], hash, n)
        == Split(t.keyBlock[hash(b) := b], t.keyServer[hash(b) := Routing.FindServer(hash(b), n).value], t.hashList + [hash(b)])
  {
    var hl := HashList(cs, hash);
    HashListSnoc(cs, b, hash);
    KeyBlockSnoc(cs, b, hash);
    KeyServerSnoc(hl, hash(b), n);
  }

  /** The hash list of one more block ends with that block's hash. */
  lemma HashListSnoc(cs: seq<Bytes>, b: Bytes, hash: Bytes -> Hex.Digest)
    ensures HashList(cs + [b], hash) == HashList(cs, hash) + [hash(b)]
  {
    assert HashList(cs + [b], hash)[|cs|] == hash(b);
  }

  /** One more block overwrites, or adds, the entry under its hash. */
  lemma KeyBlockSnoc(cs: seq<Bytes>, b: Bytes, hash: Bytes -> Hex.Digest)
    ensures KeyBlockTable(cs + [b], hash) == KeyBlockTable(cs, hash)[hash(b) := b]
  {
    assert (cs + [b])[..|cs|] == cs;
  }

  /** One more hash adds, or rewrites to the same shard, the entry under it. */
  lemma KeyServerSnoc(hl: seq<string>, h: string, n: nat)
    requires forall k :: k in hl ==> Routing.FindServer(k, n).Some?
    requires Routing.FindServer(h, n).Some?
    ensures KeyServerTable(hl + [h], n) == KeyServerTable(hl, n)[h := Routing.FindServer(h, n).value]
  {
  }

  /**
   * `splitFile` on a file holding `data`. With no block store (`n == 0`) a
   * non-empty file makes `findServer` divide by zero, hence the precondition.
   */
  function SplitFile(data: Bytes, hash: Bytes -> Hex.Digest, n: nat): (s: Split)
    requires n > 0 || data == []
    ensures s.hashList == HashList(Chunks(data), hash)
  {
    Tables(Chunks(data), hash, n)
  }

  /**
   * The three tables agree: every listed hash has its block and its shard,
   * and the two tables hold exactly the listed hashes.
   */
  lemma SplitFileConsistent(data: Bytes, hash: Bytes -> Hex.Digest, n: nat)
    requires n > 0 || data == []
    ensures var s := SplitFile(data, hash, n);
      && Consistent(s, hash, n)
      && s.keyBlock.Keys == s.keyServer.Keys
      && forall k :: k in s.keyBlock ==> k in s.hashList
  {
    KeysListed(Chunks(data), hash);
  }

  /** Every key of the block table is a listed hash. */
  lemma KeysListed(cs: seq<Bytes>, hash: Bytes -> Hex.Digest)
    ensures forall k :: k in KeyBlockTable(cs, hash) ==> k in HashList(cs, hash)
  {
    var t, hl := KeyBlockTable(cs, hash), HashList(cs, hash);
    forall k | k in t ensures k in hl {
      var i :| 0 <= i < |cs| && cs[i] == t[k];
      HashListEntries(cs, hash);
      assert hl[i] == k;
    }
  }

  /**
   * The read loop of `splitFile`: one window at a time, filling the three
   * tables as it goes. It builds exactly the tables of `SplitFile`.
   */
  method SplitFileLoop(data: Bytes, hash: Bytes -> Hex.Digest, n: nat) returns (s: Split)
    requires n > 0 || data == []
    ensures s == SplitFile(data, hash, n)
  {
    var keyBlock: map<string, Bytes> := map[];
    var keyServer: map<string, nat> := map[];
    var hashList: seq<string> := [];
    ghost var blocks: seq<Bytes> := [];
    var pos: nat := 0;
    var block := Window(data, pos);
    assert data[0..] == data;
    while block != []
      invariant pos <= |data| && block == Window(data, pos)
      invariant ReadSoFar(data, pos, blocks)
      invariant n > 0 || blocks == []
      invariant Split(keyBlock, keyServer, hashList) == Tables(blocks, hash, n)
      decreases |data| - pos
    {
      var next := pos + |block|;
      ChunksStep(data, pos, blocks, block, next);
      var key := hash(block);
      TablesSnoc(blocks, block, hash, n);
      keyBlock := keyBlock[key := block];
      keyServer := keyServer[key := Routing.FindServer(key, n).value];
      hashList := hashList + [key];
      blocks := blocks + [block];
      pos := next;
      block := Window(data, pos);
    }
    ReadAll(data, pos, blocks);
    s := Split(keyBlock, keyServer, hashList);
  }

  /** A 10,000-byte file splits into blocks of 4096, 4096 and 1808 bytes. */
  lemma TenThousandBytes(data: Bytes)
    requires |data| == 10000
    ensures |Chunks(data)| == 3
    ensures |Chunks(data)[0]| == 4096 && |Chunks(data)[1]| == 4096 && |Chunks(data)[2]| == 1808
  {
    assert Chunks(data)[1..] == Chunks(data[4096..]);
    assert Chunks(data[4096..])[1..] == Chunks(data[4096..][4096..]);
  }
}

=== FILE: client.dfy ===
/**
 * The client: the file name it uploads under, the upload and delete retry
 * loops as step functions driven against the metadata store, and the block
 * selection of a download. The loops, unbounded in the client, run here on
 * `fuel` iterations.
 */
module Client {
  import opened Base
  import Hex
  import Routing
  import BlockStore
  import M = Metastore
  import Chunker

  /** The metadata store and the block store shards together. */
  datatype System = System(meta: M.MetaState, stores: BlockStore.Stores)

  /** The text after the last `'/'` of a path that has one. */
  function AfterLastSlash(path: string): (name: string)
    requires '/' in path
    ensures |name| < |path| && path[|path| - |name|..] == name
    ensures '/' !in name
    ensures path[|path| - |name| - 1] == '/'
    decreases |path|
  {
    var last := path[|path| - 1];
    if last == '/' then []
    else
      var init := path[..|path| - 1];
      assert '/' in init by {
        var i :| 0 <= i < |path| && path[i] == '/';
        assert init[i] == '/';
      }
      var name := AfterLastSlash(init);
      assert path[|path| - |name| - 1..] == init[|init| - |name|..] + [last];
      name + [last]
  }

  /**
   * The file name `upload` stores a path under: the whole path if it has no
   * `'/'`, otherwise the text after the last `'/'`.
   */
  function FileName(path: string): string {
    if '/' !in path then path else AfterLastSlash(path)
  }

  /**
   * The file name is a suffix of the path without a `'/'`, and it is the
   * whole path or follows a `'/'`.
   */
  lemma FileNameIsLastPart(path: string)
    ensures var name := FileName(path);
      && |name| <= |path| && path[|path| - |name|..] == name
      && '/' !in name
      && (|name| < |path| ==> path[|path| - |name| - 1] == '/')
      && ('/' !in path ==> name == path)
  {
    if '/' in path {
      assert FileName(path) == AfterLastSlash(path);
    } else {
      assert FileName(path) == path;
      assert path[|path| - |path|..] == path;
    }
  }

  /**
   * The file name is the only suffix of the path that has no `'/'` and is the
   * whole path or follows a `'/'`.
   */
  lemma FileNameUnique(path: string, name: string)
    requires |name| <= |path| && path[|path| - |name|..] == name
    requires '/' !in name
    requires |name| < |path| ==> path[|path| - |name| - 1] == '/'
    ensures name == FileName(path)
  {
    FileNameIsLastPart(path);
  }

  /** What a retry loop does after a reply. */
  datatype Action = Finish | Continue(proposal: int) | Abort

  /**
   * The upload loop's rule for the next proposed version. `'OK'` ends the
   * loop; WrongVersion(c) resyncs to c + 1; every other ErrorResponse
   * (MissingBlocks after the blocks are pushed) proposes one more than
   * before; any other exception leaves the loop.
   */
  function UploadNext(proposal: int, reply: M.Reply): (a: Action)
    ensures a.Finish? <==> reply.Ok?
    ensures a.Abort? <==> reply.Fault?
    ensures reply.Err? && reply.error.WrongVersion? ==> a == Continue(reply.error.current + 1)
    ensures reply.Err? && !reply.error.WrongVersion? ==> a == Continue(proposal + 1)
  {
    match reply
    case Ok => Finish
    case Fault => Abort
    case Err(e) =>
      if e.WrongVersion? then Continue(e.current + 1) else Continue(proposal + 1)
  }

  /** The shards after pushing, and whether every listed block could be pushed. */
  datatype Pushed = Pushed(stores: BlockStore.Stores, complete: bool)

  /**
   * The MissingBlocks handler: each listed hash's block, looked up in
   * `key_block_table`, stored on shard `key_server_table[key]`, in list order.
   * A hash missing from either table raises `KeyError`; the blocks pushed
   * before it stay pushed.
   */
  function PushMissing(stores: BlockStore.Stores, missing: M.Hashlist, split: Chunker.Split): (r: Pushed)
    ensures |r.stores.shards| == |stores.shards|
    ensures r.complete <==> forall k :: k in missing ==>
      k in split.keyServer && k in split.keyBlock && split.keyServer[k] < |stores.shards|
    ensures r.complete ==> forall k :: k in missing ==>
      k in r.stores.shards[split.keyServer[k]] && r.stores.shards[split.keyServer[k]][k] == split.keyBlock[k]
    // nothing is removed, and every block written is the file's own block for its hash
    ensures BlockStore.Grows(stores, r.stores, split.keyBlock)
    decreases |missing|
  {
    if missing == [] then Pushed(stores, true)
    else
      var key := missing[0];
      if key !in split.keyServer || key !in split.keyBlock || split.keyServer[key] >= |stores.shards| then
        Pushed(stores, false)
      else
        var destination := split.keyServer[key];
        var stored := BlockStore.StoreBlock(stores, destination, key, split.keyBlock[key]);
        var r := PushMissing(stored, missing[1..], split);
        assert forall k :: k in missing ==> k == key || k in missing[1..];
        BlockStore.GrowsTransitive(stores, stored, r.stores, split.keyBlock);
        r
  }

  /** How a client command ended. */
  datatype Outcome = Done | NotFound | Aborted | OutOfFuel

  /** The system after a command, the number of mutating RPCs it made, and how it ended. */
  datatype RunEnd = RunEnd(sys: System, calls: nat, outcome: Outcome)

  function AfterCall(e: RunEnd): RunEnd {
    e.(calls := e.calls + 1)
  }

  /**
   * A finished upload of `hl` under `name`, from `before` to `e`: `calls`
   * calls to `modify_file`, the last answered `'OK'`; the file now holds
   * `hl` at `version`, and every other file reads as before.
   */
  ghost predicate Uploaded(before: System, e: RunEnd, name: string, calls: nat, version: int, hl: seq<string>) {
    && e.outcome == Done && e.calls == calls
    && M.ReadFile(e.sys.meta, name).0 == version
    && M.ReadFile(e.sys.meta, name).1 == Some(hl)
    && M.OthersKept(before.meta, e.sys.meta, name)
  }

  /** The system after one pass of a retry loop, and what the loop does next. */
  datatype Attempt = Attempt(sys: System, action: Action)

  /**
   * One pass of the `upload` loop: `modify_file` with the proposal and the
   * fixed hash list, then, on MissingBlocks, the listed blocks pushed.
   */
  function UploadAttempt(sys: System, name: string, split: Chunker.Split, proposal: int): (a: Attempt)
    ensures BlockStore.Grows(sys.stores, a.sys.stores, split.keyBlock)
    ensures M.OthersKept(sys.meta, a.sys.meta, name)
    ensures a.action.Finish? ==>
      && a.sys.stores == sys.stores
      && M.ReadFile(a.sys.meta, name).1 == Some(split.hashList)
      && M.Routable(a.sys.stores, split.hashList)
      && forall h :: h in split.hashList ==> M.Present(a.sys.stores, h)
  {
    var step := M.ModifyFile(sys.meta, sys.stores, name, proposal, split.hashList);
    match UploadNext(proposal, step.reply)
    case Finish => Attempt(System(step.state, sys.stores), Finish)
    case Abort => Attempt(System(step.state, sys.stores), Abort)
    case Continue(next) =>
      if step.reply.Err? && step.reply.error.MissingBlocks? then
        var pushed := PushMissing(sys.stores, step.reply.error.hashes, split);
        if pushed.complete then Attempt(System(step.state, pushed.stores), Continue(next))
        else Attempt(System(step.state, pushed.stores), Abort)
      else Attempt(System(step.state, sys.stores), Continue(next))
  }

  /**
   * The `while True` loop of `upload`, from proposal `proposal`, for at most
   * `fuel` calls of `modify_file`. The hash list sent is the same on every
   * attempt.
   */
  function UploadLoop(sys: System, name: string, split: Chunker.Split, proposal: int, fuel: nat): (e: RunEnd)
    ensures BlockStore.Grows(sys.stores, e.sys.stores, split.keyBlock)
    ensures M.OthersKept(sys.meta, e.sys.meta, name)
    ensures e.calls <= fuel
    ensures e.outcome == Done ==> e.calls >= 1
    ensures e.outcome == Done ==>
      && M.ReadFile(e.sys.meta, name).1 == Some(split.hashList)
      && M.Routable(e.sys.stores, split.hashList)
      && forall h :: h in split.hashList ==> M.Present(e.sys.stores, h)
    decreases fuel
  {
    if fuel == 0 then RunEnd(sys, 0, OutOfFuel)
    else
      var a := UploadAttempt(sys, name, split, proposal);
      match a.action
      case Finish => RunEnd(a.sys, 1, Done)
      case Abort => RunEnd(a.sys, 1, Aborted)
      case Continue(next) =>
        var rest := UploadLoop(a.sys, name, split, next, fuel - 1);
        BlockStore.GrowsTransitive(sys.stores, a.sys.stores, rest.sys.stores, split.keyBlock);
        AfterCall(rest)
  }

  /**
   * `upload` once the file has been found and read: split it once and run
   * the loop, the first proposal being the version `read_file` reports
   * (`M.Version`, the first half of `M.ReadFile`) plus one.
   */
  function UploadData(sys: System, name: string, data: Bytes, hash: Bytes -> Hex.Digest, fuel: nat): (e: RunEnd)
    ensures e.outcome == Done ==> M.ReadFile(e.sys.meta, name).1 == Some(Chunker.HashList(Chunker.Chunks(data), hash))
    // a non-empty file cannot be uploaded without a block store
    ensures e.outcome == Done && data != [] ==> |sys.stores.shards| > 0
    // only the uploaded file's record can change
    ensures M.OthersKept(sys.meta, e.sys.meta, name)
  {
    // splitting a non-empty file without a block store divides by zero
    if |sys.stores.shards| > 0 || data == [] then
      UploadLoop(sys, name, Chunker.SplitFile(data, hash, |sys.stores.shards|), M.Version(sys.meta, name) + 1, fuel)
    else RunEnd(sys, 0, Aborted)
  }

  /** `upload(filepath)`: `local` is the file's contents, `None` when there is no such file. */
  function Upload(sys: System, path: string, local: Option<Bytes>, hash: Bytes -> Hex.Digest, fuel: nat): (e: RunEnd)
    ensures local.None? ==> e == RunEnd(sys, 0, NotFound)
    ensures e.outcome == Done ==>
      local.Some? && M.ReadFile(e.sys.meta, FileName(path)).1 == Some(Chunker.HashList(Chunker.Chunks(local.value), hash))
    ensures e.outcome == Done && local.Some? && local.value != [] ==> |sys.stores.shards| > 0
    ensures M.OthersKept(sys.meta, e.sys.meta, FileName(path))
  {
    if local.None? then RunEnd(sys, 0, NotFound)
    else UploadData(sys, FileName(path), local.value, hash, fuel)
  }

  /**
   * The not-found check of `delete`: a version of 0, a tombstone and an empty
   * hashlist all count as absent. Otherwise the first proposal is `v + 1`.
   */
  function DeleteStart(v: int, hl: Option<M.Hashlist>): (r: Option<int>)
    ensures r.None? <==> v == 0 || hl.None? || hl.value == []
    ensures r.Some? ==> r.value == v + 1
  {
    if v == 0 || hl.None? || hl.value == [] then None else Some(v + 1)
  }

  /**
   * The delete loop's rule: `'OK'` ends it, WrongVersion(c) resyncs to c + 1,
   * any other ErrorResponse repeats the same proposal, any other exception
   * leaves. No reply from the store makes it give up.
   */
  function DeleteNext(proposal: int, reply: M.Reply): (a: Action)
    ensures a.Finish? <==> reply.Ok?
    ensures a.Abort? <==> reply.Fault?
    ensures reply.Err? && reply.error.WrongVersion? ==> a == Continue(reply.error.current + 1)
    ensures reply.Err? && !reply.error.WrongVersion? ==> a == Continue(proposal)
  {
    match reply
    case Ok => Finish
    case Fault => Abort
    case Err(e) => if e.WrongVersion? then Continue(e.current + 1) else Continue(proposal)
  }

  /** The `while True` loop of `delete`, for at most `fuel` calls of `delete_file`. */
  function DeleteLoop(sys: System, name: string, proposal: int, fuel: nat): (e: RunEnd)
    ensures e.sys.stores == sys.stores
    ensures M.OthersKept(sys.meta, e.sys.meta, name)
    ensures e.calls <= fuel
    ensures e.outcome == Done ==> e.calls >= 1 && M.ReadFile(e.sys.meta, name).1 == None
    ensures e.outcome != Aborted
    decreases fuel
  {
    if fuel == 0 then RunEnd(sys, 0, OutOfFuel)
    else
      var step := M.DeleteFile(sys.meta, name, proposal);
      var after := System(step.state, sys.stores);
      match DeleteNext(proposal, step.reply)
      case Finish => RunEnd(after, 1, Done)
      case Abort => RunEnd(after, 1, Aborted)
      case Continue(next) => AfterCall(DeleteLoop(after, name, next, fuel - 1))
  }

  /** `delete(filename)`. */
  function Delete(sys: System, name: string, fuel: nat): (e: RunEnd)
    ensures var (v, hl) := M.ReadFile(sys.meta, name);
      DeleteStart(v, hl).None? <==> e.outcome == NotFound
    ensures e.outcome == NotFound ==> e == RunEnd(sys, 0, NotFound)
    ensures e.sys.stores == sys.stores
    ensures M.OthersKept(sys.meta, e.sys.meta, name)
  {
    var (v, hl) := M.ReadFile(sys.meta, name);
    match DeleteStart(v, hl)
    case None => RunEnd(sys, 0, NotFound)
    case Some(proposal) => DeleteLoop(sys, name, proposal, fuel)
  }

  /** `get_block(key)` from shard `findServer(key)`; `None` where the client would raise. */
  function Fetch(stores: BlockStore.Stores, key: string): (r: Option<Bytes>)
    ensures r.Some? <==> exists i :: Routing.FindServer(key, |stores.shards|) == Some(i) && key in stores.shards[i]
    ensures r.Some? ==> r.value == stores.shards[Routing.FindServer(key, |stores.shards|).value][key]
  {
    match Routing.FindServer(key, |stores.shards|)
    case None => None
    case Some(i) => BlockStore.GetBlock(stores, i, key)
  }

  /** The block written for `key`: the local copy when the local table has the hash, a fetch otherwise. */
  function BlockFor(stores: BlockStore.Stores, local: map<string, Bytes>, key: string): Option<Bytes> {
    if key in local then Some(local[key]) else Fetch(stores, key)
  }

  /**
   * The blocks `download` writes, one per hashlist entry and in hashlist
   * order; `None` if some block cannot be had.
   */
  function FetchBlocks(stores: BlockStore.Stores, local: map<string, Bytes>, hl: M.Hashlist): (r: Option<seq<Bytes>>)
    ensures r.Some? <==> forall i :: 0 <= i < |hl| ==> BlockFor(stores, local, hl[i]).Some?
    ensures r.Some? ==> |r.value| == |hl|
    ensures r.Some? ==> forall i :: 0 <= i < |hl| ==>
      (hl[i] in local ==> r.value[i] == local[hl[i]])
      && (hl[i] !in local ==> Some(r.value[i]) == Fetch(stores, hl[i]))
    decreases |hl|
  {
    if hl == [] then Some([])
    else
      match BlockFor(stores, local, hl[0])
      case None => None
      case Some(b) =>
        match FetchBlocks(stores, local, hl[1..])
        case None =>
          assert exists i :: 0 <= i < |hl| && BlockFor(stores, local, hl[i]).None? by {
            var j :| 0 <= j < |hl[1..]| && BlockFor(stores, local, hl[1..][j]).None?;
            assert hl[j + 1] == hl[1..][j];
          }
          None
        case Some(rest) =>
          assert forall i :: 1 <= i < |hl| ==> hl[i] == hl[1..][i - 1];
          Some([b] + rest)
  }

  /** How a download ended: the bytes written, or no file. */
  datatype Download = FileAbsent | Written(content: Bytes) | Failed

  /**
   * `download(filename, location)`: `local` is the file already at the
   * destination, if any; its blocks are reused by hash.
   */
  function DownloadFile(sys: System, name: string, local: Option<Bytes>, hash: Bytes -> Hex.Digest): (r: Download)
    ensures var hl := M.ReadFile(sys.meta, name).1;
      r == FileAbsent <==> hl.None? || hl.value == []
  {
    var (_, hl) := M.ReadFile(sys.meta, name);
    if hl.None? || hl.value == [] then FileAbsent
    else
      var n := |sys.stores.shards|;
      if local.Some? && local.value != [] && n == 0 then Failed
      else
        var table := if local.Some? then Chunker.SplitFile(local.value, hash, n).keyBlock else map[];
        match FetchBlocks(sys.stores, table, hl.value)
        case None => Failed
        case Some(blocks) => Written(Chunker.Concat(blocks))
  }
}

=== FILE: hex.dfy ===
/** Hexadecimal strings as Python's `int(s, 16)` reads them, and the type of block digests. */
module Hex {

  predicate IsHexDigit(c: char) {
    '0' <= c <= '9' || 'a' <= c <= 'f' || 'A' <= c <= 'F'
  }

  function DigitValue(c: char): (d: nat)
    requires IsHexDigit(c)
    ensures d < 16
  {
    if '0' <= c <= '9' then c as int - '0' as int
    else if 'a' <= c <= 'f' then c as int - 'a' as int + 10
    else c as int - 'A' as int + 10
  }

  /** A non-empty string of hex digits: the strings `int(s, 16)` accepts in this model. */
  predicate IsHex(s: string) {
    |s| > 0 && forall i :: 0 <= i < |s| ==> IsHexDigit(s[i])
  }

  /** A hex digest, such as SHA-256's `hexdigest()` produces. */
  type Digest = s: string | IsHex(s) witness "0"

  /** 16 to the power `k`. */
  function Pow16(k: nat): nat {
    if k == 0 then 1 else 16 * Pow16(k - 1)
  }

  /**
   * The value of a string of hex digits, positionally: each digit weighs 16
   * to the power of the number of digits after it.
   */
  function Value(s: string): nat
    requires forall i :: 0 <= i < |s| ==> IsHexDigit(s[i])
    decreases |s|
  {
    if s == [] then 0 else DigitValue(s[0]) * Pow16(|s| - 1) + Value(s[1..])
  }

  /** One more digit on the right multiplies the value so far by 16 and adds the digit. */
  lemma {:induction false} ValueSnoc(t: string, c: char)
    requires forall i :: 0 <= i < |t| ==> IsHexDigit(t[i])
    requires IsHexDigit(c)
    ensures Value(t + [c]) == 16 * Value(t) + DigitValue(c)
    decreases |t|
  {
    var u := t + [c];
    if t != [] {
      assert u[0] == t[0] && u[1..] == t[1..] + [c];
      ValueSnoc(t[1..], c);
      var d, p, w := DigitValue(t[0]), Pow16(|t| - 1), Value(t[1..]);
      calc {
        Value(u);
        d * Pow16(|t|) + Value(t[1..] + [c]);
        d * (16 * p) + (16 * w + DigitValue(c));
        { ShiftDigit(d, p); }
        16 * (d * p + w) + DigitValue(c);
      }
    }
  }

  /** A digit weighed one place further left weighs 16 times as much. */
  lemma ShiftDigit(d: nat, p: nat)
    ensures d * (16 * p) == 16 * (d * p)
  {
  }

  /**
   * `int(s, 16)` as Python reads it: left to right from the first digit,
   * multiplying the running value by 16 and adding each digit. The result is
   * the positional `Value`.
   */
  method Parse(s: string) returns (v: nat)
    requires forall i :: 0 <= i < |s| ==> IsHexDigit(s[i])
    ensures v == Value(s)
  {
    v := 0;
    var i := 0;
    while i < |s|
      invariant 0 <= i <= |s|
      invariant v == Value(s[..i])
    {
      assert s[..i + 1] == s[..i] + [s[i]];
      ValueSnoc(s[..i], s[i]);
      v := v * 16 + DigitValue(s[i]);
      i := i + 1;
    }
    assert s[..|s|] == s;
  }
}

=== FILE: metastore.dfy ===
/**
 * The metadata store: the authoritative table from filename to
 * (version, hashlist-or-tombstone) under optimistic concurrency. Each
 * lock-protected RPC body is one atomic transition of `MetaState`.
 */
module Metastore {
  import opened Base
  import Routing
  import BlockStore

  /** An ordered list of block hashes, as the client sends it. */
  type Hashlist = seq<string>

  /**
   * `version_map` and `hashlist_map`. A hashlist of `None` is a tombstone left
   * by `delete_file`.
   */
  datatype MetaState = MetaState(versions: map<string, int>, hashlists: map<string, Option<Hashlist>>)

  /** The store as the constructor leaves it: both maps empty. */
  const Initial: MetaState := MetaState(map[], map[])

  /** The two maps share their keys and every stored version is at least 1. */
  ghost predicate Valid(st: MetaState) {
    && st.versions.Keys == st.hashlists.Keys
    && forall f :: f in st.versions ==> st.versions[f] >= 1
  }

  /** The kinds of `ErrorResponse`: `error_type` 1, 2 and 3 in that order. */
  datatype Error = MissingBlocks(hashes: Hashlist) | WrongVersion(current: int) | FileNotFound

  /**
   * What an RPC answers: `'OK'`, a raised `ErrorResponse`, or `Fault` for any
   * other exception (a hash `find_server` cannot route).
   */
  datatype Reply = Ok | Err(error: Error) | Fault

  /** The replies of calls that wrote the table. */
  predicate Commits(reply: Reply) {
    reply.Ok? || (reply.Err? && reply.error.MissingBlocks?)
  }

  datatype Step = Step(state: MetaState, reply: Reply)

  /** `server_version`: the stored version, 0 for an unknown filename. */
  function Version(st: MetaState, f: string): int {
    if f in st.versions then st.versions[f] else 0
  }

  /**
   * On a well-formed store a version of 0 means the name is unknown, so the
   * `v == 0` test of the client's `delete` reads as "never written".
   */
  lemma VersionZeroIffUnknown(st: MetaState, f: string)
    requires Valid(st)
    ensures Version(st, f) == 0 <==> f !in st.versions
  {
  }

  /** `read_file`: a pure lookup of both maps. */
  function ReadFile(st: MetaState, f: string): (r: (int, Option<Hashlist>))
    ensures f !in st.versions ==> r.0 == 0
    ensures f in st.versions ==> r.0 == st.versions[f]
    ensures f !in st.hashlists ==> r.1 == None
    ensures f in st.hashlists ==> r.1 == st.hashlists[f]
    ensures Valid(st) && f !in st.versions ==> r == (0, None)
  {
    (Version(st, f), if f in st.hashlists then st.hashlists[f] else None)
  }

  /** Both maps updated for `f`; every other filename keeps its entry. */
  function Commit(st: MetaState, f: string, version: int, hl: Option<Hashlist>): (r: MetaState)
    ensures ReadFile(r, f) == (version, hl) && Version(r, f) == version
    ensures forall g :: g != f ==> ReadFile(r, g) == ReadFile(st, g)
    ensures f in r.versions && st.versions.Keys <= r.versions.Keys
    ensures f in st.versions ==> r.versions.Keys == st.versions.Keys
    ensures Valid(st) && version >= 1 ==> Valid(r)
  {
    MetaState(st.versions[f := version], st.hashlists[f := hl])
  }

  /** Every filename other than `f` reads the same in `after` as in `before`. */
  ghost predicate OthersKept(before: MetaState, after: MetaState, f: string) {
    forall g :: g != f ==> ReadFile(after, g) == ReadFile(before, g)
  }

  /** Every hash can be routed to a shard, so `find_server` raises for none of them. */
  predicate Routable(stores: BlockStore.Stores, hl: Hashlist) {
    forall h :: h in hl ==> Routing.FindServer(h, |stores.shards|).Some?
  }

  /** `has_block(h)` asked of the shard that owns `h`. */
  predicate Present(stores: BlockStore.Stores, h: string)
    requires Routing.FindServer(h, |stores.shards|).Some?
  {
    h in stores.shards[Routing.FindServer(h, |stores.shards|).value]
  }

  /**
   * The `missing_blocks` list: the hashes of `hl` whose owning shard does not
   * hold them, in `hl` order, duplicates kept.
   */
  function Missing(stores: BlockStore.Stores, hl: Hashlist): (m: Hashlist)
    requires Routable(stores, hl)
    ensures |m| <= |hl|
    decreases |hl|
  {
    if hl == [] then []
    else
      assert hl == [hl[0]] + hl[1..];
      (if Present(stores, hl[0]) then [] else [hl[0]]) + Missing(stores, hl[1..])
  }

  /** No omissions and no extras: a hash is reported exactly when it is listed and its shard lacks it. */
  lemma {:induction false} MissingMembers(stores: BlockStore.Stores, hl: Hashlist)
    requires Routable(stores, hl)
    ensures forall h :: h in Missing(stores, hl) <==> h in hl && !Present(stores, h)
    decreases |hl|
  {
    if hl != [] {
      assert hl == [hl[0]] + hl[1..];
      MissingMembers(stores, hl[1..]);
    }
  }

  /** `exposed_modify_file`, the body under the lock as one step. */
  function ModifyFile(st: MetaState, stores: BlockStore.Stores, f: string, version: int, hl: Hashlist): (r: Step)
    // a wrong version is refused, naming the current one, and nothing changes
    ensures version != Version(st, f) + 1 ==> r == Step(st, Err(WrongVersion(Version(st, f))))
    // a hash that cannot be routed raises before anything is written
    ensures version == Version(st, f) + 1 && !Routable(stores, hl) ==> r == Step(st, Fault)
    // otherwise (version, hl) is recorded, also when blocks are missing
    ensures version == Version(st, f) + 1 && Routable(stores, hl) ==>
      && ReadFile(r.state, f) == (version, Some(hl))
      && (r.reply == Ok || r.reply == Err(MissingBlocks(Missing(stores, hl))))
    ensures r.reply.Ok? <==>
      version == Version(st, f) + 1 && Routable(stores, hl) && forall h :: h in hl ==> Present(stores, h)
    ensures r.reply.Err? && r.reply.error.MissingBlocks? ==> |r.reply.error.hashes| > 0
    // a write advances the version by exactly one; anything else leaves the state alone
    ensures Commits(r.reply) ==> version == Version(st, f) + 1 && Version(r.state, f) == version
    ensures Commits(r.reply) ==> f in r.state.versions && st.versions.Keys <= r.state.versions.Keys
    ensures !Commits(r.reply) ==> r.state == st
    ensures forall g :: g != f ==> ReadFile(r.state, g) == ReadFile(st, g)
    ensures Valid(st) ==> Valid(r.state)
  {
    var current := Version(st, f);
    if version != current + 1 then Step(st, Err(WrongVersion(current)))
    else if !Routable(stores, hl) then Step(st, Fault)
    else
      var missing := Missing(stores, hl);
      MissingMembers(stores, hl);
      assert |missing| > 0 ==> missing[0] in missing;
      var written := Commit(st, f, version, Some(hl));
      if |missing| > 0 then Step(written, Err(MissingBlocks(missing)))
      else Step(written, Ok)
  }

  /**
   * `exposed_delete_file`. An unknown filename is refused as
   * `WrongVersion(0)`, never as `FileNotFound`, and a tombstoned file may be
   * deleted again.
   */
  function DeleteFile(st: MetaState, f: string, version: int): (r: Step)
    ensures Version(st, f) == 0 || version != Version(st, f) + 1 ==>
      r == Step(st, Err(WrongVersion(Version(st, f))))
    ensures Version(st, f) != 0 && version == Version(st, f) + 1 ==>
      r.reply == Ok && ReadFile(r.state, f) == (version, None)
    ensures Commits(r.reply) ==> version == Version(st, f) + 1 && Version(r.state, f) == version
    ensures Commits(r.reply) ==> r.state.versions.Keys == st.versions.Keys
    ensures !Commits(r.reply) ==> r.state == st
    ensures !(r.reply.Err? && r.reply.error.FileNotFound?)
    ensures forall g :: g != f ==> ReadFile(r.state, g) == ReadFile(st, g)
    ensures Valid(st) ==> Valid(r.state)
  {
    var current := Version(st, f);
    if current == 0 || version != current + 1 then Step(st, Err(WrongVersion(current)))
    else Step(Commit(st, f, version, None), Ok)
  }

  /** One call on the store, as another client might issue it. */
  datatype Op = Modify(file: string, version: int, hashlist: Hashlist) | Delete(file: string, version: int)

  function Apply(st: MetaState, stores: BlockStore.Stores, op: Op): (r: Step)
    ensures Commits(r.reply) ==> Version(r.state, op.file) == Version(st, op.file) + 1 == op.version
    ensures Commits(r.reply) ==> st.versions.Keys <= r.state.versions.Keys
    ensures !Commits(r.reply) ==> r.state == st
    ensures forall g :: g != op.file ==> Version(r.state, g) == Version(st, g)
    ensures Valid(st) ==> Valid(r.state)
  {
    match op
    case Modify(f, v, hl) => ModifyFile(st, stores, f, v, hl)
    case Delete(f, v) => DeleteFile(st, f, v)
  }

  /** The state after a sequence of calls, and each call's reply. */
  datatype Trace = Trace(state: MetaState, replies: seq<Reply>)

  function Run(st: MetaState, stores: BlockStore.Stores, ops: seq<Op>): (t: Trace)
    ensures |t.replies| == |ops|
    decreases |ops|
  {
    if ops == [] then Trace(st, [])
    else
      var first := Apply(st, stores, ops[0]);
      var rest := Run(first.state, stores, ops[1..]);
      Trace(rest.state, [first.reply] + rest.replies)
  }

  /** How many of the calls on `f` wrote the table. */
  function CommitCount(ops: seq<Op>, replies: seq<Reply>, f: string): nat
    requires |replies| == |ops|
    decreases |ops|
  {
    if ops == [] then 0
    else (if ops[0].file == f && Commits(replies[0]) then 1 else 0) + CommitCount(ops[1..], replies[1..], f)
  }

  /**
   * Every call that writes the table advances the file's version by exactly
   * one, and no call removes a filename: after any sequence of calls the
   * version of `f` is its starting version plus the number of calls on `f`
   * that were answered `'OK'` or MissingBlocks.
   */
  lemma {:induction false} VersionCountsCommits(st: MetaState, stores: BlockStore.Stores, ops: seq<Op>, f: string)
    ensures Version(Run(st, stores, ops).state, f) == Version(st, f) + CommitCount(ops, Run(st, stores, ops).replies, f)
    ensures st.versions.Keys <= Run(st, stores, ops).state.versions.Keys
    ensures Valid(st) ==> Valid(Run(st, stores, ops).state)
    decreases |ops|
  {
    if ops != [] {
      var first := Apply(st, stores, ops[0]);
      VersionCountsCommits(first.state, stores, ops[1..], f);
    }
  }

  /**
   * Duplicates are kept: a hash the owning shard lacks is reported as often
   * as it occurs in the list, and a held one never.
   */
  lemma {:induction false} MissingCounts(stores: BlockStore.Stores, hl: Hashlist, h: string)
    requires Routable(stores, hl)
    requires h in hl
    ensures multiset(Missing(stores, hl))[h] == if Present(stores, h) then 0 else multiset(hl)[h]
    decreases |hl|
  {
    assert hl == [hl[0]] + hl[1..];
    var rest := Missing(stores, hl[1..]);
    if h in hl[1..] {
      MissingCounts(stores, hl[1..], h);
    } else {
      MissingMembers(stores, hl[1..]);
      assert multiset(hl[1..])[h] == 0;
      assert multiset(rest)[h] == 0;
    }
    var head: Hashlist := if Present(stores, hl[0]) then [] else [hl[0]];
    assert Missing(stores, hl) == head + rest;
    assert multiset(Missing(stores, hl)) == multiset(head) + multiset(rest);
    assert multiset(hl) == multiset([hl[0]]) + multiset(hl[1..]);
  }

  /**
   * Concatenation of hash lists is associative. Stated apart so that the
   * inductive step of `MissingAppend` does not have to prove it in its own,
   * much larger, context.
   */
  lemma AppendAssoc(x: Hashlist, y: Hashlist, z: Hashlist)
    ensures x + (y + z) == (x + y) + z
  {
  }

  /** The missing-blocks report of a concatenation is the concatenation of the reports: order is kept. */
  lemma {:induction false} MissingAppend(stores: BlockStore.Stores, a: Hashlist, b: Hashlist)
    requires Routable(stores, a) && Routable(stores, b)
    ensures Routable(stores, a + b)
    ensures Missing(stores, a + b) == Missing(stores, a) + Missing(stores, b)
    decreases |a|
  {
    if a == [] {
      assert a + b == b;
    } else {
      var ab := a + b;
      assert ab[0] == a[0];
      assert ab[1..] == a[1..] + b;
      MissingAppend(stores, a[1..], b);
      var head: Hashlist := if Present(stores, a[0]) then [] else [a[0]];
      var ma, mb := Missing(stores, a[1..]), Missing(stores, b);
      assert Missing(stores, ab) == head + (ma + mb);
      assert Missing(stores, a) == head + ma;
      AppendAssoc(head, ma, mb);
    }
  }

  /**
   * Of two calls on the same file proposing the same version, at most the
   * first writes: once it has, the second is refused with WrongVersion
   * carrying the version the first one wrote, whatever kinds the calls are.
   */
  lemma SameVersionOneWinner(st: MetaState, stores: BlockStore.Stores, first: Op, second: Op)
    requires first.file == second.file && first.version == second.version
    requires Commits(Apply(st, stores, first).reply)
    ensures Apply(Apply(st, stores, first).state, stores, second)
         == Step(Apply(st, stores, first).state, Err(WrongVersion(first.version)))
  {
  }

  /**
   * Resubmitting the same version after a MissingBlocks reply is refused:
   * the speculative write already took that version.
   */
  lemma ResubmitAfterMissingBlocksRefused(st: MetaState, stores: BlockStore.Stores, f: string, version: int, hl: Hashlist)
    requires ModifyFile(st, stores, f, version, hl).reply.Err?
    requires ModifyFile(st, stores, f, version, hl).reply.error.MissingBlocks?
    ensures var s1 := ModifyFile(st, stores, f, version, hl).state;
      ModifyFile(s1, stores, f, version, hl) == Step(s1, Err(WrongVersion(version)))
  {
    SameVersionOneWinner(st, stores, Modify(f, version, hl), Modify(f, version, hl));
  }
}

=== FILE: protocol.dfy ===
/**
 * The client and the metadata store together: what an upload, a download and
 * a delete do to the system when no other client interferes.
 */
module Protocol {
  import opened Base
  import Hex
  import Routing
  import BlockStore
  import M = Metastore
  import Chunker
  import opened Client

  /** No two different blocks share a hash. */
  ghost predicate Injective(hash: Bytes -> Hex.Digest) {
    forall a, b :: hash(a) == hash(b) ==> a == b
  }

  /**
   * The client files each block on the shard `findServer` names, which is the
   * shard the store's `find_server` asks: once the MissingBlocks list of the
   * client's own hash list is pushed, the store sees every listed block.
   */
  lemma PushMakesPresent(stores: BlockStore.Stores, missing: M.Hashlist, split: Chunker.Split, hash: Bytes -> Hex.Digest)
    requires Chunker.Consistent(split, hash, |stores.shards|)
    requires forall k :: k in missing ==> k in split.hashList
    ensures PushMissing(stores, missing, split).complete
    ensures M.Routable(PushMissing(stores, missing, split).stores, missing)
    ensures forall k :: k in missing ==> M.Present(PushMissing(stores, missing, split).stores, k)
  {
    var r := PushMissing(stores, missing, split);
    forall k | k in missing
      ensures Routing.FindServer(k, |r.stores.shards|) == Some(split.keyServer[k])
    {
    }
  }

  /** The upload loop only ever stores blocks under their own hash. */
  lemma UploadLoopKeepsHonest(sys: System, name: string, split: Chunker.Split, proposal: int, fuel: nat, hash: Bytes -> Hex.Digest)
    requires BlockStore.Honest(sys.stores, hash)
    requires Chunker.Consistent(split, hash, |sys.stores.shards|)
    ensures BlockStore.Honest(UploadLoop(sys, name, split, proposal, fuel).sys.stores, hash)
  {
    var e := UploadLoop(sys, name, split, proposal, fuel);
    BlockStore.GrowsKeepsHonest(sys.stores, e.sys.stores, split.keyBlock, hash);
  }

  /** `upload` of an existing file splits it once and enters the loop at the version read plus one. */
  lemma {:induction false} UploadEntersLoop(sys: System, path: string, data: Bytes, hash: Bytes -> Hex.Digest, fuel: nat)
    requires |sys.stores.shards| > 0 || data == []
    ensures var name := FileName(path); var split := Chunker.SplitFile(data, hash, |sys.stores.shards|);
      Upload(sys, path, Some(data), hash, fuel) == UploadLoop(sys, name, split, M.Version(sys.meta, name) + 1, fuel)
  {
    UploadIsData(sys, path, data, hash, fuel);
    DataEntersLoop(sys, FileName(path), data, hash, fuel);
  }

  lemma {:induction false} UploadIsData(sys: System, path: string, data: Bytes, hash: Bytes -> Hex.Digest, fuel: nat)
    ensures Upload(sys, path, Some(data), hash, fuel) == UploadData(sys, FileName(path), data, hash, fuel)
  {
  }

  /** A read file that can be split runs the loop on its split. */
  lemma {:induction false} DataEntersLoop(sys: System, name: string, data: Bytes, hash: Bytes -> Hex.Digest, fuel: nat)
    requires |sys.stores.shards| > 0 || data == []
    ensures UploadData(sys, name, data, hash, fuel)
         == UploadLoop(sys, name, Chunker.SplitFile(data, hash, |sys.stores.shards|), M.Version(sys.meta, name) + 1, fuel)
  {
    var split := Chunker.SplitFile(data, hash, |sys.stores.shards|);
    var v := M.Version(sys.meta, name) + 1;
    assert UploadData(sys, name, data, hash, fuel) == UploadLoop(sys, name, split, v, fuel);
  }

  /**
   * A proposal the store refuses as the wrong version is replaced by the
   * version it reports plus one (`v = e.current_version`, then `v = v+1`):
   * the refused call counts, and the loop carries on from the resynced proposal.
   */
  lemma {:induction false} UploadLoopResyncs(sys: System, name: string, split: Chunker.Split, proposal: int, fuel: nat)
    requires fuel >= 1 && proposal != M.Version(sys.meta, name) + 1
    ensures UploadLoop(sys, name, split, proposal, fuel)
         == AfterCall(UploadLoop(sys, name, split, M.Version(sys.meta, name) + 1, fuel - 1))
  {
    var a := UploadAttempt(sys, name, split, proposal);
    RefusedAttemptResyncs(sys, name, split, proposal);
    assert a.sys == sys && a.action == Continue(M.Version(sys.meta, name) + 1);
  }

  /** A pass whose proposal is refused changes nothing and proposes the reported version plus one. */
  lemma RefusedAttemptResyncs(sys: System, name: string, split: Chunker.Split, proposal: int)
    requires proposal != M.Version(sys.meta, name) + 1
    ensures UploadAttempt(sys, name, split, proposal) == Attempt(sys, Continue(M.Version(sys.meta, name) + 1))
  {
    var step := M.ModifyFile(sys.meta, sys.stores, name, proposal, split.hashList);
    assert step.state == sys.meta;
  }

  /** The same resync in the delete loop, where an unknown file is refused too. */
  lemma {:induction false} DeleteLoopResyncs(sys: System, name: string, proposal: int, fuel: nat)
    requires fuel >= 1
    requires M.Version(sys.meta, name) == 0 || proposal != M.Version(sys.meta, name) + 1
    ensures DeleteLoop(sys, name, proposal, fuel)
         == AfterCall(DeleteLoop(sys, name, M.Version(sys.meta, name) + 1, fuel - 1))
  {
  }

  /**
   * The delete loop has no retry counter: entered directly on a file the
   * store does not know, every call is refused with WrongVersion(0), and the
   * loop spends all its fuel without changing anything. `Delete` never gets
   * here, since `DeleteStart` refuses version 0 and no call removes a
   * record; only a concurrent writer could lead the loop there.
   */
  lemma {:induction false} DeleteSpinsOnUnknown(sys: System, name: string, proposal: int, fuel: nat)
    requires M.Version(sys.meta, name) == 0
    ensures DeleteLoop(sys, name, proposal, fuel) == RunEnd(sys, fuel, OutOfFuel)
    decreases fuel
  {
    if fuel > 0 {
      DeleteLoopResyncs(sys, name, proposal, fuel);
      DeleteSpinsOnUnknown(sys, name, 1, fuel - 1);
    }
  }

  /** A pass answered `'OK'` leaves the loop after that one call. */
  lemma LoopFinishes(sys: System, name: string, split: Chunker.Split, proposal: int, fuel: nat)
    requires fuel >= 1
    requires M.ModifyFile(sys.meta, sys.stores, name, proposal, split.hashList).reply == M.Ok
    ensures UploadLoop(sys, name, split, proposal, fuel)
         == RunEnd(System(M.ModifyFile(sys.meta, sys.stores, name, proposal, split.hashList).state, sys.stores), 1, Done)
  {
  }

  /** A pass answered MissingBlocks whose blocks all get pushed goes round again one version up. */
  lemma LoopPushes(sys: System, name: string, split: Chunker.Split, proposal: int, next: int, fuel: nat, missing: M.Hashlist)
    requires fuel >= 1 && next == proposal + 1
    requires M.ModifyFile(sys.meta, sys.stores, name, proposal, split.hashList).reply == M.Err(M.MissingBlocks(missing))
    requires PushMissing(sys.stores, missing, split).complete
    ensures var step := M.ModifyFile(sys.meta, sys.stores, name, proposal, split.hashList);
      UploadLoop(sys, name, split, proposal, fuel)
        == AfterCall(UploadLoop(System(step.state, PushMissing(sys.stores, missing, split).stores), name, split, next, fuel - 1))
  {
  }

  /**
   * Pushing the MissingBlocks list of the file's own hash list succeeds, and
   * afterwards every listed block is held by its shard.
   */
  lemma PushCompletes(stores: BlockStore.Stores, split: Chunker.Split, hash: Bytes -> Hex.Digest)
    requires Chunker.Consistent(split, hash, |stores.shards|)
    requires M.Routable(stores, split.hashList)
    ensures var pushed := PushMissing(stores, M.Missing(stores, split.hashList), split);
      && pushed.complete
      && M.Routable(pushed.stores, split.hashList)
      && forall h :: h in split.hashList ==> M.Present(pushed.stores, h)
  {
    var missing := M.Missing(stores, split.hashList);
    M.MissingMembers(stores, split.hashList);
    PushMakesPresent(stores, missing, split, hash);
    var pushed := PushMissing(stores, missing, split);
    forall h | h in split.hashList ensures M.Present(pushed.stores, h) {
      if h !in missing {
        assert M.Present(stores, h);
      }
    }
  }

  /** The split of a file the shards can route: consistent tables and a routable hash list. */
  lemma SplitReady(stores: BlockStore.Stores, data: Bytes, hash: Bytes -> Hex.Digest)
    requires |stores.shards| > 0
    ensures var split := Chunker.SplitFile(data, hash, |stores.shards|);
      Chunker.Consistent(split, hash, |stores.shards|) && M.Routable(stores, split.hashList)
  {
    Chunker.SplitFileConsistent(data, hash, |stores.shards|);
  }

  /**
   * An upload whose blocks the shards already hold, with nobody else
   * writing: one `modify_file` call, answered `'OK'`, and the stored version
   * is the one read plus one. No block is pushed and no other file changes.
   */
  lemma UploadWhenAllPresent(sys: System, path: string, data: Bytes, hash: Bytes -> Hex.Digest, fuel: nat)
    requires fuel >= 1 && |sys.stores.shards| > 0
    requires forall h :: h in Chunker.HashList(Chunker.Chunks(data), hash) ==> M.Present(sys.stores, h)
    ensures var e := Upload(sys, path, Some(data), hash, fuel);
      var name := FileName(path);
      && e.outcome == Done && e.calls == 1
      && e.sys.stores == sys.stores
      && M.ReadFile(e.sys.meta, name) == (M.Version(sys.meta, name) + 1, Some(Chunker.HashList(Chunker.Chunks(data), hash)))
      && M.OthersKept(sys.meta, e.sys.meta, name)
  {
    var name := FileName(path);
    var split := Chunker.SplitFile(data, hash, |sys.stores.shards|);
    var v := M.Version(sys.meta, name);
    var step := M.ModifyFile(sys.meta, sys.stores, name, v + 1, split.hashList);
    assert step.reply == M.Ok by {
      assert M.Routable(sys.stores, split.hashList);
    }
    assert Upload(sys, path, Some(data), hash, fuel) == RunEnd(System(step.state, sys.stores), 1, Done) by {
      UploadEntersLoop(sys, path, data, hash, fuel);
      LoopFinishes(sys, name, split, v + 1, fuel);
    }
  }

  /**
   * With a block missing, the first `modify_file` call reports exactly the
   * missing list, and pushing that list succeeds.
   */
  lemma FirstPassReportsMissing(sys: System, name: string, split: Chunker.Split, hash: Bytes -> Hex.Digest, absent: string)
    requires Chunker.Consistent(split, hash, |sys.stores.shards|)
    requires M.Routable(sys.stores, split.hashList)
    requires absent in split.hashList && !M.Present(sys.stores, absent)
    ensures M.ModifyFile(sys.meta, sys.stores, name, M.Version(sys.meta, name) + 1, split.hashList).reply
         == M.Err(M.MissingBlocks(M.Missing(sys.stores, split.hashList)))
    ensures PushMissing(sys.stores, M.Missing(sys.stores, split.hashList), split).complete
  {
    PushCompletes(sys.stores, split, hash);
  }

  /** `LoopPushes` at the version read plus one. */
  lemma FirstPassLoops(sys: System, name: string, split: Chunker.Split, fuel: nat)
    requires fuel >= 2
    requires M.Routable(sys.stores, split.hashList)
    requires M.ModifyFile(sys.meta, sys.stores, name, M.Version(sys.meta, name) + 1, split.hashList).reply
          == M.Err(M.MissingBlocks(M.Missing(sys.stores, split.hashList)))
    requires PushMissing(sys.stores, M.Missing(sys.stores, split.hashList), split).complete
    ensures var v := M.Version(sys.meta, name);
      var first := M.ModifyFile(sys.meta, sys.stores, name, v + 1, split.hashList);
      var pushed := PushMissing(sys.stores, M.Missing(sys.stores, split.hashList), split);
      UploadLoop(sys, name, split, v + 1, fuel)
        == AfterCall(UploadLoop(System(first.state, pushed.stores), name, split, v + 2, fuel - 1))
  {
    var v := M.Version(sys.meta, name);
    LoopPushes(sys, name, split, v + 1, v + 2, fuel, M.Missing(sys.stores, split.hashList));
  }

  /**
   * The first pass when some block is missing: `modify_file` records the
   * list speculatively and reports MissingBlocks, the blocks are pushed,
   * and the loop goes round again at the version read plus two.
   */
  lemma FirstPassPushes(sys: System, name: string, split: Chunker.Split, fuel: nat, hash: Bytes -> Hex.Digest, absent: string)
    requires fuel >= 2
    requires Chunker.Consistent(split, hash, |sys.stores.shards|)
    requires M.Routable(sys.stores, split.hashList)
    requires absent in split.hashList && !M.Present(sys.stores, absent)
    ensures var v := M.Version(sys.meta, name);
      var first := M.ModifyFile(sys.meta, sys.stores, name, v + 1, split.hashList);
      var pushed := PushMissing(sys.stores, M.Missing(sys.stores, split.hashList), split);
      UploadLoop(sys, name, split, v + 1, fuel)
        == AfterCall(UploadLoop(System(first.state, pushed.stores), name, split, v + 2, fuel - 1))
  {
    FirstPassReportsMissing(sys, name, split, hash, absent);
    FirstPassLoops(sys, name, split, fuel);
  }

  /** The second pass, after the push: every block is held, so `modify_file` answers `'OK'`. */
  lemma SecondPassFinishes(sys: System, name: string, split: Chunker.Split, fuel: nat, hash: Bytes -> Hex.Digest)
    requires fuel >= 2
    requires Chunker.Consistent(split, hash, |sys.stores.shards|)
    requires M.Routable(sys.stores, split.hashList)
    ensures var v := M.Version(sys.meta, name);
      var first := M.ModifyFile(sys.meta, sys.stores, name, v + 1, split.hashList);
      var pushed := PushMissing(sys.stores, M.Missing(sys.stores, split.hashList), split);
      var second := M.ModifyFile(first.state, pushed.stores, name, v + 2, split.hashList);
      UploadLoop(System(first.state, pushed.stores), name, split, v + 2, fuel - 1)
        == RunEnd(System(second.state, pushed.stores), 1, Done)
  {
    var hl := split.hashList;
    var v := M.Version(sys.meta, name);
    var first := M.ModifyFile(sys.meta, sys.stores, name, v + 1, hl);
    var pushed := PushMissing(sys.stores, M.Missing(sys.stores, hl), split);
    PushCompletes(sys.stores, split, hash);
    LoopFinishes(System(first.state, pushed.stores), name, split, v + 2, fuel - 1);
  }

  /**
   * The loop from the version read plus one, when some block is missing and
   * nobody else writes: two calls, and the list recorded at the version
   * read plus two, because the client proposes one more after MissingBlocks
   * although the first call already wrote the version read plus one.
   */
  lemma LoopWhenBlocksMissing(sys: System, name: string, split: Chunker.Split, fuel: nat, hash: Bytes -> Hex.Digest, absent: string)
    requires fuel >= 2
    requires Chunker.Consistent(split, hash, |sys.stores.shards|)
    requires M.Routable(sys.stores, split.hashList)
    requires absent in split.hashList && !M.Present(sys.stores, absent)
    ensures Uploaded(sys, UploadLoop(sys, name, split, M.Version(sys.meta, name) + 1, fuel), name, 2, M.Version(sys.meta, name) + 2, split.hashList)
  {
    FirstPassPushes(sys, name, split, fuel, hash, absent);
    SecondPassFinishes(sys, name, split, fuel, hash);
  }

  /**
   * What a finished run of the loop from the version read plus one says
   * about the file holds of `upload`, which runs that loop on the file's split.
   */
  lemma UploadRunsLoop(sys: System, path: string, data: Bytes, hash: Bytes -> Hex.Digest, fuel: nat,
                       name: string, split: Chunker.Split, calls: nat, version: int)
    requires |sys.stores.shards| > 0 || data == []
    requires name == FileName(path) && split == Chunker.SplitFile(data, hash, |sys.stores.shards|)
    requires Uploaded(sys, UploadLoop(sys, name, split, M.Version(sys.meta, name) + 1, fuel), name, calls, version, split.hashList)
    ensures Uploaded(sys, Upload(sys, path, Some(data), hash, fuel), name, calls, version, Chunker.HashList(Chunker.Chunks(data), hash))
  {
    UploadEntersLoop(sys, path, data, hash, fuel);
  }

  /** The split of a file with a block its shard lacks is ready for `LoopWhenBlocksMissing`. */
  lemma SplitWithMissing(stores: BlockStore.Stores, data: Bytes, hash: Bytes -> Hex.Digest, absent: string)
    requires |stores.shards| > 0
    requires absent in Chunker.HashList(Chunker.Chunks(data), hash) && !M.Present(stores, absent)
    ensures var split := Chunker.SplitFile(data, hash, |stores.shards|);
      && Chunker.Consistent(split, hash, |stores.shards|) && M.Routable(stores, split.hashList)
      && absent in split.hashList
  {
    SplitReady(stores, data, hash);
  }

  /**
   * An upload that needs blocks, with nobody else writing, takes two
   * `modify_file` calls: the first writes the version read plus one
   * speculatively and reports the missing blocks; the client pushes them and,
   * because it proposes one more, the second is answered `'OK'` at the
   * version read plus two.
   */
  lemma UploadWhenBlocksMissing(sys: System, path: string, data: Bytes, hash: Bytes -> Hex.Digest, fuel: nat, absent: string)
    requires fuel >= 2 && |sys.stores.shards| > 0
    requires absent in Chunker.HashList(Chunker.Chunks(data), hash) && !M.Present(sys.stores, absent)
    ensures var name := FileName(path);
      Uploaded(sys, Upload(sys, path, Some(data), hash, fuel), name, 2, M.Version(sys.meta, name) + 2, Chunker.HashList(Chunker.Chunks(data), hash))
  {
    var name := FileName(path);
    var split := Chunker.SplitFile(data, hash, |sys.stores.shards|);
    SplitWithMissing(sys.stores, data, hash, absent);
    LoopWhenBlocksMissing(sys, name, split, fuel, hash, absent);
    UploadRunsLoop(sys, path, data, hash, fuel, name, split, 2, M.Version(sys.meta, name) + 2);
  }

  /**
   * Every block of the list can be had, from the local table or from its
   * shard, and every one carries its own hash: then, with an injective hash,
   * the blocks fetched are the chunks the list was made from.
   */
  lemma {:induction false} FetchReassembles(stores: BlockStore.Stores, local: map<string, Bytes>, cs: seq<Bytes>, hash: Bytes -> Hex.Digest)
    requires Injective(hash)
    requires BlockStore.Honest(stores, hash)
    requires forall k :: k in local ==> hash(local[k]) == k
    requires M.Routable(stores, Chunker.HashList(cs, hash))
    requires forall h :: h in Chunker.HashList(cs, hash) ==> M.Present(stores, h)
    ensures FetchBlocks(stores, local, Chunker.HashList(cs, hash)) == Some(cs)
  {
    var hl := Chunker.HashList(cs, hash);
    forall i | 0 <= i < |hl|
      ensures BlockFor(stores, local, hl[i]).Some?
      ensures hash(BlockFor(stores, local, hl[i]).value) == hl[i]
    {
      assert hl[i] in hl;
      if hl[i] !in local {
        var s := Routing.FindServer(hl[i], |stores.shards|).value;
        assert hl[i] in stores.shards[s];
      }
    }
    var r := FetchBlocks(stores, local, hl);
    assert r.Some?;
    forall i | 0 <= i < |cs|
      ensures r.value[i] == cs[i]
    {
      assert r.value[i] == BlockFor(stores, local, hl[i]).value;
      assert hash(r.value[i]) == hash(cs[i]);
    }
    assert r.value == cs;
  }

  /**
   * A download of a file whose every block its shard holds, each under its
   * own hash: with an injective hash it writes the blocks the hash list was
   * made from, whatever file already lies at the destination.
   */
  lemma DownloadReassembles(sys: System, name: string, local: Option<Bytes>, cs: seq<Bytes>, hash: Bytes -> Hex.Digest)
    requires Injective(hash)
    requires BlockStore.Honest(sys.stores, hash)
    requires cs != [] && |sys.stores.shards| > 0
    requires M.ReadFile(sys.meta, name).1 == Some(Chunker.HashList(cs, hash))
    requires M.Routable(sys.stores, Chunker.HashList(cs, hash))
    requires forall h :: h in Chunker.HashList(cs, hash) ==> M.Present(sys.stores, h)
    ensures DownloadFile(sys, name, local, hash) == Written(Chunker.Concat(cs))
  {
    var n := |sys.stores.shards|;
    var table := if local.Some? then Chunker.SplitFile(local.value, hash, n).keyBlock else map[];
    FetchReassembles(sys.stores, table, cs, hash);
  }

  /**
   * Every block of the list is in the local table, filed under its own hash:
   * then the blocks gathered are the chunks, and no shard is asked for any.
   */
  lemma LocalReassembles(stores: BlockStore.Stores, local: map<string, Bytes>, cs: seq<Bytes>, hash: Bytes -> Hex.Digest)
    requires Injective(hash)
    requires forall k :: k in local ==> hash(local[k]) == k
    requires forall i :: 0 <= i < |cs| ==> hash(cs[i]) in local
    ensures FetchBlocks(stores, local, Chunker.HashList(cs, hash)) == Some(cs)
  {
    var hl := Chunker.HashList(cs, hash);
    Chunker.HashListEntries(cs, hash);
    var r := FetchBlocks(stores, local, hl);
    assert r.Some?;
    forall i | 0 <= i < |cs|
      ensures r.value[i] == cs[i]
    {
      assert r.value[i] == local[hl[i]];
    }
    assert r.value == cs;
  }

  /**
   * Each hash of the list is looked up on its own: the local table's block
   * when the table has it, the shard's otherwise. When every chunk can be had
   * one way or the other, each filed under its own hash, the blocks gathered
   * are the chunks.
   */
  lemma {:induction false} MixedReassembles(stores: BlockStore.Stores, local: map<string, Bytes>, cs: seq<Bytes>, hash: Bytes -> Hex.Digest)
    requires Injective(hash)
    requires BlockStore.Honest(stores, hash)
    requires forall k :: k in local ==> hash(local[k]) == k
    requires forall i :: 0 <= i < |cs| ==> hash(cs[i]) in local || Fetch(stores, hash(cs[i])).Some?
    ensures FetchBlocks(stores, local, Chunker.HashList(cs, hash)) == Some(cs)
  {
    var hl := Chunker.HashList(cs, hash);
    Chunker.HashListEntries(cs, hash);
    forall i | 0 <= i < |hl|
      ensures BlockFor(stores, local, hl[i]).Some?
      ensures hash(BlockFor(stores, local, hl[i]).value) == hl[i]
    {
      if hl[i] !in local {
        var s := Routing.FindServer(hl[i], |stores.shards|).value;
        assert hl[i] in stores.shards[s];
      }
    }
    var r := FetchBlocks(stores, local, hl);
    assert r.Some?;
    forall i | 0 <= i < |cs|
      ensures r.value[i] == cs[i]
    {
      assert r.value[i] == BlockFor(stores, local, hl[i]).value;
      assert hash(r.value[i]) == hash(cs[i]);
    }
    assert r.value == cs;
  }

  /**
   * A download into a destination that already holds the very file: every
   * block comes from the destination's own split table, so the download
   * writes the file back whatever the block stores hold, even nothing.
   */
  lemma DownloadUsesLocalCopy(sys: System, name: string, data: Bytes, hash: Bytes -> Hex.Digest)
    requires Injective(hash)
    requires data != [] && |sys.stores.shards| > 0
    requires M.ReadFile(sys.meta, name).1 == Some(Chunker.HashList(Chunker.Chunks(data), hash))
    ensures DownloadFile(sys, name, Some(data), hash) == Written(data)
  {
    var n := |sys.stores.shards|;
    var cs := Chunker.Chunks(data);
    var split := Chunker.SplitFile(data, hash, n);
    Chunker.SplitFileConsistent(data, hash, n);
    Chunker.HashListEntries(cs, hash);
    forall i | 0 <= i < |cs| ensures hash(cs[i]) in split.keyBlock {
      assert split.hashList[i] in split.hashList;
    }
    LocalReassembles(sys.stores, split.keyBlock, cs, hash);
    Chunker.ChunksConcat(data);
  }

  /**
   * A download into a destination holding some other file, say an older
   * version of this one: the blocks the two share are taken from the
   * destination, and only the others are fetched from their shards.
   */
  lemma DownloadMixes(sys: System, name: string, data: Bytes, cs: seq<Bytes>, hash: Bytes -> Hex.Digest)
    requires Injective(hash)
    requires BlockStore.Honest(sys.stores, hash)
    requires cs != [] && |sys.stores.shards| > 0
    requires M.ReadFile(sys.meta, name).1 == Some(Chunker.HashList(cs, hash))
    requires forall i :: 0 <= i < |cs| ==> cs[i] in Chunker.Chunks(data) || Fetch(sys.stores, hash(cs[i])).Some?
    ensures DownloadFile(sys, name, Some(data), hash) == Written(Chunker.Concat(cs))
  {
    var n := |sys.stores.shards|;
    var table := Chunker.SplitFile(data, hash, n).keyBlock;
    assert table == Chunker.KeyBlockTable(Chunker.Chunks(data), hash);
    forall i | 0 <= i < |cs|
      ensures hash(cs[i]) in table || Fetch(sys.stores, hash(cs[i])).Some?
    {
      if cs[i] in Chunker.Chunks(data) {
        var j :| 0 <= j < |Chunker.Chunks(data)| && Chunker.Chunks(data)[j] == cs[i];
      }
    }
    MixedReassembles(sys.stores, table, cs, hash);
  }

  /**
   * Round trip at the loop: once the loop has uploaded a non-empty file's
   * split, downloading the file writes exactly its bytes.
   */
  lemma LoopThenDownload(sys: System, name: string, data: Bytes, hash: Bytes -> Hex.Digest, proposal: int, fuel: nat, local: Option<Bytes>)
    requires Injective(hash)
    requires BlockStore.Honest(sys.stores, hash)
    requires data != [] && |sys.stores.shards| > 0
    requires UploadLoop(sys, name, Chunker.SplitFile(data, hash, |sys.stores.shards|), proposal, fuel).outcome == Done
    ensures var e := UploadLoop(sys, name, Chunker.SplitFile(data, hash, |sys.stores.shards|), proposal, fuel);
      DownloadFile(e.sys, name, local, hash) == Written(data)
  {
    var split := Chunker.SplitFile(data, hash, |sys.stores.shards|);
    var e := UploadLoop(sys, name, split, proposal, fuel);
    SplitReady(sys.stores, data, hash);
    UploadLoopKeepsHonest(sys, name, split, proposal, fuel, hash);
    DownloadReassembles(e.sys, name, local, Chunker.Chunks(data), hash);
    Chunker.ChunksConcat(data);
  }

  /**
   * Round trip: once an upload of a non-empty file has finished, downloading
   * the file writes exactly its bytes, whatever file already lies at the
   * destination.
   */
  lemma UploadThenDownload(sys: System, path: string, data: Bytes, hash: Bytes -> Hex.Digest, fuel: nat, local: Option<Bytes>)
    requires Injective(hash)
    requires BlockStore.Honest(sys.stores, hash)
    requires data != []
    requires Upload(sys, path, Some(data), hash, fuel).outcome == Done
    ensures DownloadFile(Upload(sys, path, Some(data), hash, fuel).sys, FileName(path), local, hash) == Written(data)
  {
    var name := FileName(path);
    UploadEntersLoop(sys, path, data, hash, fuel);
    LoopResultDownloads(sys, name, data, hash, M.Version(sys.meta, name) + 1, fuel, local, Upload(sys, path, Some(data), hash, fuel));
  }

  /** `LoopThenDownload` for a run known to be the loop's. */
  lemma LoopResultDownloads(sys: System, name: string, data: Bytes, hash: Bytes -> Hex.Digest, proposal: int, fuel: nat, local: Option<Bytes>, e: RunEnd)
    requires Injective(hash)
    requires BlockStore.Honest(sys.stores, hash)
    requires data != [] && |sys.stores.shards| > 0
    requires e == UploadLoop(sys, name, Chunker.SplitFile(data, hash, |sys.stores.shards|), proposal, fuel)
    requires e.outcome == Done
    ensures DownloadFile(e.sys, name, local, hash) == Written(data)
  {
    LoopThenDownload(sys, name, data, hash, proposal, fuel, local);
  }

  /**
   * An empty file uploads (one call, an empty hash list at the version read
   * plus one) but is then absent to both `download` and `delete`, which
   * treat an empty hashlist as not found.
   */
  lemma EmptyFileUploadsButIsNotFound(sys: System, path: string, hash: Bytes -> Hex.Digest, fuel: nat, fuel': nat, local: Option<Bytes>)
    requires fuel >= 1
    ensures var e := Upload(sys, path, Some([]), hash, fuel);
      && e.outcome == Done && e.calls == 1
      && M.ReadFile(e.sys.meta, FileName(path)) == (M.Version(sys.meta, FileName(path)) + 1, Some([]))
      && DownloadFile(e.sys, FileName(path), local, hash) == FileAbsent
      && Delete(e.sys, FileName(path), fuel') == RunEnd(e.sys, 0, NotFound)
  {
    var name := FileName(path);
    var split := Chunker.SplitFile([], hash, |sys.stores.shards|);
    assert split.hashList == [];
    var step := M.ModifyFile(sys.meta, sys.stores, name, M.Version(sys.meta, name) + 1, []);
    assert step.reply == M.Ok;
  }

  /**
   * From an empty store and empty shards, uploading a non-empty file twice
   * leaves version 2 after the first upload (two calls) and version 3 after
   * the second (one call, every block already held).
   */
  lemma UploadTwiceFromEmpty(shards: nat, path: string, data: Bytes, hash: Bytes -> Hex.Digest, fuel: nat)
    requires shards > 0 && fuel >= 2 && data != []
    ensures var empty := System(M.Initial, BlockStore.Stores(seq(shards, _ => map[])));
      var first := Upload(empty, path, Some(data), hash, fuel);
      var second := Upload(first.sys, path, Some(data), hash, fuel);
      && first.outcome == Done && first.calls == 2 && M.ReadFile(first.sys.meta, FileName(path)).0 == 2
      && second.outcome == Done && second.calls == 1 && M.ReadFile(second.sys.meta, FileName(path)).0 == 3
  {
    var empty := System(M.Initial, BlockStore.Stores(seq(shards, _ => map[])));
    var hl := Chunker.HashList(Chunker.Chunks(data), hash);
    assert hl[0] in hl && !M.Present(empty.stores, hl[0]);
    UploadWhenBlocksMissing(empty, path, data, hash, fuel, hl[0]);
    var first := Upload(empty, path, Some(data), hash, fuel);
    UploadWhenAllPresent(first.sys, path, data, hash, fuel);
  }

  /**
   * A delete of a file that holds blocks, with nobody else writing: one
   * `delete_file` call at the version read plus one, answered `'OK'`, and
   * the file reads back as a tombstone at that version.
   */
  lemma DeleteWhenPresent(sys: System, name: string, fuel: nat)
    requires fuel >= 1
    requires M.Version(sys.meta, name) != 0
    requires M.ReadFile(sys.meta, name).1.Some? && M.ReadFile(sys.meta, name).1.value != []
    ensures var e := Delete(sys, name, fuel);
      && e.outcome == Done && e.calls == 1 && e.sys.stores == sys.stores
      && M.ReadFile(e.sys.meta, name) == (M.Version(sys.meta, name) + 1, None)
      && M.OthersKept(sys.meta, e.sys.meta, name)
  {
  }
}

=== FILE: routing.dfy ===
/** The shard router shared by the metadata store and the client. */
module Routing {
  import opened Base
  import Hex

  /**
   * The shard that owns hash `h` among `n` block stores: the hex value of `h`
   * modulo `n`. `None` stands for the exception Python raises instead: a
   * `ValueError` when `h` is not hexadecimal, a `ZeroDivisionError` when `n == 0`.
   */
  function FindServer(h: string, n: nat): (r: Option<nat>)
    ensures r.Some? <==> Hex.IsHex(h) && n > 0
    ensures r.Some? ==> r.value < n
  {
    if Hex.IsHex(h) && n > 0 then Some(Hex.Value(h) % n) else None
  }
}
